=== FILE: README.md ===
# Car damage prototype: motion state machine and damage latches

A Dafny model of the game logic of a Unity car-damage prototype:

- **CarController** — a car's signed speed (`_acceleration`), steer rate
  (`_steer`) and forward/backward direction latches, advanced once per physics
  tick by a priority dispatch over the driver's intent (accelerate, reverse,
  brake, or let go). `Acceleration` and `StopAcceleration` check their bound
  *before* stepping. So acceleration passes the speed and steer maxima by at
  most one step, while braking subtracts the whole factor from any speed on
  the latch's side of zero and can take speed to `-max(breaks, 0.1)`. A
  braking latch clears only on the call after speed has crossed zero.
- **CarCollisionDetect** — on contact, the body is damaged when either car's
  speed magnitude is strictly above 3.5 (a partner without a controller counts
  as 0). A one-way `_isDamaged` latch guards the sprite swap.
- **SpecialDamage** — the same rule and latch for a named part. On its single
  transition it also deactivates every object in `_detailsForDisable`.

Numbers are fixed-point hundredths: the speed step 0.05 is `5`, the steer step
0.01 is `1`, the idle decay 0.1 is `10`, the default brakes 0.2 are `20`, the
default maximum speed 7.0 is `700`, the maximum steer 2.0 is `200` and the
damage threshold 3.5 is `350`.

Layout:

- `wrappers.dfy`: `Option`.
- `car_motion.dfy`, module `CarMotion`: the motion state machine as functions
  (`Accelerate`, `Brake`, `Rotations`, `Tick`, `RunTicks`) and the lemmas about
  them.
- `car_control.dfy`, module `CarControl`: class `CarController`. Its fields are
  updated in place, and each method is proved against `CarMotion`.
- `damage_rule.dfy`, module `DamageRule`: the damage predicate shared by both
  collision handlers, the latch (`Collide`), and lemmas over series of
  contacts.
- `car_collision.dfy` and `part_damage.dfy`: classes `CarCollisionDetect` and
  `SpecialDamage`. A ghost counter in each records how often the one-time
  effects ran.

Three consequences of the code that a reader might not expect. The numbers
quoted for the defaults are those of exact hundredths, which is what the
model computes; see "Floating point" under "## Left out".

- The steer rate changes only inside `Acceleration` and `StopAcceleration`
  (CarController.cs:216-219, 302-305). Each `StopAcceleration` call lowers it
  by 0.01 while it is `>= 0`, so its floor is -0.01, not 0. It only gets
  there if enough braking calls run before both latches clear. With the
  defaults it stays at 1.28 after driving forward 200 ticks and coasting 72.
- From rest, forward acceleration steps while `_acceleration <= _maxSpeed`
  (CarController.cs:156-158). It therefore stops at
  `(floor(maxSpeed / 0.05) + 1) * 0.05`, which is 7.05 with the defaults in
  exact hundredths.
- The forward latch is cleared on the first call after speed has gone
  negative, and speed is left as it is (CarController.cs:262-265). When the
  backward latch is clear, the idle and brake branches then do nothing
  (CarController.cs:68-87). So `_acceleration`, which `CurrentSpeed` reports,
  keeps a residual reverse value, -0.05 with the defaults in exact
  hundredths. No further `Translate` is issued, so the car does not creep
  backwards. When the backward latch is still set, the idle branch goes on to
  brake in reverse. That pushes speed back into (0, 0.1] before the backward
  latch clears in turn, and leaves that forward residual instead.

## Model

| member | source | states |
|---|---|---|
| `CarMotion.Rotations` | CarDamagePrototype/Assets/Scripts/CarController.cs:161-212 | Keyboard mode rotates once per held key: left by `direction * steer`, right by the opposite. Touch mode rotates at most once: left by `+steer` first, otherwise right by `-steer`, whatever the direction, and not at all when neither button is held. |
| `CarMotion.Accelerate` | CarDamagePrototype/Assets/Scripts/CarController.cs:151-219 | Direction 1 sets the forward latch. It raises speed by one step exactly when speed was `<= maxSpeed`, so speed never ends above `max(old, maxSpeed + 0.05)`. Direction -1 mirrors this. Any other direction leaves speed and latches alone. The steer rate rises by one step exactly when it was `<= maxSteer`. |
| `CarMotion.Brake` | CarDamagePrototype/Assets/Scripts/CarController.cs:231-305 | Never sets a latch. Forward: while speed `>= 0` it subtracts the factor, keeps the latch and lands no lower than `-factor`. Otherwise it clears the latch and leaves speed unchanged. Backward mirrors this. The steer rate drops by one step exactly when it was `>= 0`, so it never goes below `min(old, -0.01)`. |
| `CarMotion.Tick` | CarDamagePrototype/Assets/Scripts/CarController.cs:43-122 | A tick runs an action (and emits a pose) unless there is no accelerate or reverse intent and no latch set; in that case nothing changes. The translation is the new speed. A latch is set only by its own accelerate intent. The forward latch is cleared only by braking after speed went negative. The backward latch is cleared only by braking with no forward latch after speed went positive. |
| `CarMotion.RunPoses` | CarDamagePrototype/Assets/Scripts/CarController.cs:43-54 | Every tick of a run yields exactly one (possibly absent) pose change. |
| `CarMotion.RotationMirroring` | CarDamagePrototype/Assets/Scripts/CarController.cs:163-212 | Reversing negates every keyboard rotation and leaves touch rotations unchanged. Holding both keys forward applies `+steer` then `-steer`. |
| `CarMotion.TickKeepsLimits` | CarDamagePrototype/Assets/Scripts/CarController.cs:151-305 | With non-negative brakes, one tick keeps `|speed| <= max(maxSpeed + 0.05, breaks, 0.1)` and the steer rate in `[-0.01, max(maxSteer + 0.01, 0)]`. |
| `CarMotion.RunKeepsLimits` | CarDamagePrototype/Assets/Scripts/CarController.cs:151-305 | The same limits hold after any sequence of ticks. |
| `CarMotion.LimitsFromRest` | CarDamagePrototype/Assets/Scripts/CarController.cs:28-29 | Starting from rest, under any inputs, speed and steer rate stay within those limits. |
| `CarMotion.IdleWithoutLatches` | CarDamagePrototype/Assets/Scripts/CarController.cs:77-87 | With neither latch set and no input, any number of ticks changes nothing and emits no pose. |
| `CarMotion.ForwardRun` | CarDamagePrototype/Assets/Scripts/CarController.cs:153-159 | From a speed that is a multiple of 0.05 and not above the cap, `n` forward ticks give `min(speed + 0.05 n, 0.05 (maxSpeed / 0.05 + 1))`. They set the forward latch and leave the backward latch. The steer rate grows by 0.01 per tick up to maxSteer + 0.01. |
| `CarMotion.ForwardFromRest` | CarDamagePrototype/Assets/Scripts/CarController.cs:153-159 | From rest, `n` forward ticks give speed `0.05 * min(n, maxSpeed / 0.05 + 1)`: at most one step past the maximum (exactly one when maxSpeed is a multiple of 0.05). |
| `CarMotion.DecayRun` | CarDamagePrototype/Assets/Scripts/CarController.cs:233-266 | With no accelerate or reverse intent, a forward-latched car loses the brake (or idle) factor each tick while its speed is not negative. The forward latch holds and the backward latch is untouched. The steer rate drops by 0.01 per tick, to no lower than -0.01. |
| `CarMotion.DecayClearsForwardLatch` | CarDamagePrototype/Assets/Scripts/CarController.cs:233-266 | Once the decays take speed below zero, the next tick clears the forward latch without moving speed. The speed is left in `[-factor, 0)`. That call still lowers the steer rate. |
| `CarMotion.DefaultDriveAndCoast` | CarDamagePrototype/Assets/Scripts/CarController.cs:56-87 | With the default settings: 200 forward ticks from rest give 7.05. Then 72 idle ticks give speed -0.05 and steer rate 1.28 with both latches clear, and later idle ticks change nothing and emit no pose. |
| `CarMotion.CoastWithBothLatches` | CarDamagePrototype/Assets/Scripts/CarController.cs:77-87 | With both latches set, speed `v >= 0` and no key held, `m + 4` idle ticks (`m` the number of 0.1 decays that take `v` below zero) leave both latches clear and speed in `(0, 0.1]`: the forward decays cross zero, then reverse braking crosses back. |
| `CarMotion.ReverseSettles` | CarDamagePrototype/Assets/Scripts/CarController.cs:267-299 | With only the backward latch set and speed in `[-0.1, 0)`, three idle ticks leave both latches clear and speed in `(0, 0.1]`. |
| `CarControl.CarController.constructor` | CarDamagePrototype/Assets/Scripts/CarController.cs:19-36 | A new car is at rest with no latch and no touch button held. |
| `CarControl.CarController.CurrentSpeed` | CarDamagePrototype/Assets/Scripts/CarController.cs:38-41 | Returns the signed speed, not its magnitude. |
| `CarControl.CarController.SetTouchAcceleration` | CarDamagePrototype/Assets/Scripts/CarController.cs:126-129 | Changes only the accelerate button of the touch intent. |
| `CarControl.CarController.SetTouchBack` | CarDamagePrototype/Assets/Scripts/CarController.cs:131-134 | Changes only the reverse button of the touch intent. |
| `CarControl.CarController.SetTouchBreaks` | CarDamagePrototype/Assets/Scripts/CarController.cs:136-139 | Changes only the brake button of the touch intent. |
| `CarControl.CarController.SetSteerLeft` | CarDamagePrototype/Assets/Scripts/CarController.cs:141-144 | Changes only the left button of the touch intent. |
| `CarControl.CarController.SetSteerRight` | CarDamagePrototype/Assets/Scripts/CarController.cs:146-149 | Changes only the right button of the touch intent. |
| `CarControl.CarController.Acceleration` | CarDamagePrototype/Assets/Scripts/CarController.cs:151-229 | The new state is `Accelerate` of the old one. The pose holds the rotations from the keys (keyboard) or the buttons (touch), with the old steer rate, and the translation by the new speed. |
| `CarControl.CarController.StopAcceleration` | CarDamagePrototype/Assets/Scripts/CarController.cs:231-308 | The new state is `Brake` of the old one. It rotates only when it decays speed, and it always translates by the new speed. |
| `CarControl.CarController.Control` | CarDamagePrototype/Assets/Scripts/CarController.cs:56-122 | The if/else chain of both control methods gives exactly the state and pose of `Tick`. |
| `CarControl.CarController.KeyBoardControl` | CarDamagePrototype/Assets/Scripts/CarController.cs:56-88 | In keyboard mode a tick on the polled keys is `Tick` on those keys. |
| `CarControl.CarController.TouchControl` | CarDamagePrototype/Assets/Scripts/CarController.cs:90-122 | In touch mode a tick is `Tick` on the button flags. |
| `CarControl.CarController.FixedUpdate` | CarDamagePrototype/Assets/Scripts/CarController.cs:43-54 | Runs the control method for the car's mode. The result is `Tick` on the intent of that mode. |
| `CarControl.CarController.InputsFor` | CarDamagePrototype/Assets/Scripts/CarController.cs:45-53 | The intent of each tick is the polled keys in keyboard mode and the button flags in touch mode. |
| `CarControl.CarController.Simulate` | CarDamagePrototype/Assets/Scripts/CarController.cs:43-54 | A run of FixedUpdate calls leaves the state `RunTicks` gives. It returns the poses `RunPoses` gives. |
| `DamageRule.IsDamagingImpact` | CarDamagePrototype/Assets/Scripts/CarCollisionDetect.cs:21-26 | Damage exactly when the own speed or the partner's speed, when there is a partner, is strictly above 3.5 or strictly below -3.5. |
| `DamageRule.ImpactOf` | CarDamagePrototype/Assets/Scripts/CarCollisionDetect.cs:20-24 | The own speed is the car's current speed. The partner's speed is absent exactly when the partner has no controller. |
| `DamageRule.Collide` | CarDamagePrototype/Assets/Scripts/CarCollisionDetect.cs:18-29 | The flag never resets. It flips exactly when it was clear and the contact damages. |
| `DamageRule.ImpactSymmetric` | CarDamagePrototype/Assets/Scripts/CarCollisionDetect.cs:26 | Swapping own and partner speed does not change the verdict. |
| `DamageRule.ImpactIgnoresSign` | CarDamagePrototype/Assets/Scripts/CarCollisionDetect.cs:21-24 | Negating either speed does not change the verdict. |
| `DamageRule.MissingPartnerStandsStill` | CarDamagePrototype/Assets/Scripts/CarCollisionDetect.cs:23-24 | A partner without a controller is judged like one with speed 0. Scenery hits depend on own speed alone. |
| `DamageRule.ThresholdExamples` | CarDamagePrototype/Assets/Scripts/CarCollisionDetect.cs:26 | 3.5 against 3.5 does not damage; 4.0 alone does; 3.0 alone does not; 3.0 against 4.0 does; 2.0 against 5.0 damages both sides. |
| `DamageRule.LatchNeverResets` | CarDamagePrototype/Assets/Scripts/CarCollisionDetect.cs:14-37 | Once damaged, any later contacts leave the flag set and run no effects. |
| `DamageRule.LatchHistory` | CarDamagePrototype/Assets/Scripts/CarCollisionDetect.cs:14-37 | After a series of contacts, an undamaged entity is damaged exactly when some contact damaged. |
| `DamageRule.EffectsAtMostOnce` | CarDamagePrototype/Assets/Scripts/CarCollisionDetect.cs:18-37 | Over any series of contacts the effects run at most once. They run exactly once when the flag starts clear and ends set. |
| `CarCollision.CarCollisionDetect.constructor` | CarDamagePrototype/Assets/Scripts/CarCollisionDetect.cs:12-14 | A new component is undamaged and has swapped no sprite. |
| `CarCollision.CarCollisionDetect.Damage` | CarDamagePrototype/Assets/Scripts/CarCollisionDetect.cs:33-37 | Puts the damaged sprite in place and sets the flag. |
| `CarCollision.CarCollisionDetect.OnCollisionEnter2D` | CarDamagePrototype/Assets/Scripts/CarCollisionDetect.cs:16-31 | The flag becomes `Collide` of the old flag and the contact. The sprite is swapped, for the first and only time, exactly when the flag flips. Otherwise nothing changes. |
| `PartDamage.GameObject.SetActive` | CarDamagePrototype/Assets/Scripts/SpecialDamage.cs:39 | Sets the object's active flag. |
| `PartDamage.SpecialDamage.constructor` | CarDamagePrototype/Assets/Scripts/SpecialDamage.cs:12-16 | A new part is undamaged and has run no effects. |
| `PartDamage.SpecialDamage.Damage` | CarDamagePrototype/Assets/Scripts/SpecialDamage.cs:35-44 | Afterwards every listed object is inactive, whatever it was before. The damaged sprite is in place and the flag is set. Only the listed objects, the sprite and the flag may change. |
| `PartDamage.SpecialDamage.OnCollisionEnter2D` | CarDamagePrototype/Assets/Scripts/SpecialDamage.cs:18-33 | The same latch as the body's. On the flip, and only then, the listed objects are deactivated and the sprite swapped. Otherwise no listed object changes. |

## Left out

- Floating point: speeds, steps and thresholds are exact hundredths. The float32 rounding of repeated 0.05 and 0.01 additions is not modelled. With the default settings that rounding matters: the accumulated 0.05 steps pass 7.0 one step earlier than in exact arithmetic, so the real car stops at about 7.00 with no overshoot and coasts down to about -0.10. The values in `ForwardFromRest`, `DefaultDriveAndCoast` and the notes above are those of exact arithmetic. The steer values, the -0.01 floor and the 3.5 threshold are unaffected.
- `Input.GetKey` polling is an `Intent` parameter. Touch buttons reach the car only through the `Set*` methods.
- `transform.Rotate` / `transform.Translate`, `Vector2`/`Vector3` and `Time.deltaTime`: the model emits the signed rotation angles and the translation speed (`PoseDelta`) instead of moving a transform.
- Inspector-serialised fields: `_acceleration` always starts at its declared default 0, and the limits and brakes are constructor arguments.
- `GetComponentInParent` / `GetComponent`: the owning car's controller is a non-null parameter, so the null dereference the source risks when it is missing is not modelled. The partner's controller is a nullable parameter.
- The `SpriteRenderer` is a `sprite` field holding a `Sprite` value. The physics engine's calls of `FixedUpdate` and `OnCollisionEnter2D` are method calls (`Simulate` stands for the host loop).
- `CarControl.CarController.Simulate`: touch buttons are held still during a run; button presses between ticks are separate `Set*` calls.
- `_detailsForDisable` holds non-null objects: an unassigned slot, on which the source's loop would throw, is not modelled.
- CameraFollowScript.cs is not part of this model: it only copies the car's position plus two offsets into the camera transform.

=== FILE: car_collision.dfy ===
/**
  CarCollisionDetect.cs: the car body's damage latch. The sprite is a
  value standing for the renderer's current sprite; the ghost counter
  records how often the damaged sprite has been put in place.
*/
module CarCollision {
  import opened CarControl
  import opened DamageRule

  class CarCollisionDetect {
    const damagedSprite: Sprite
    var sprite: Sprite
    var isDamaged: bool
    ghost var spriteSwaps: nat

    /** The sprite has been swapped once if damaged, never otherwise. */
    ghost predicate Valid()
      reads this
    {
      spriteSwaps == if isDamaged then 1 else 0
    }

    constructor (sprite: Sprite, damagedSprite: Sprite)
      ensures Valid() && !isDamaged
      ensures this.sprite == sprite && this.damagedSprite == damagedSprite
    {
      this.damagedSprite := damagedSprite;
      this.sprite := sprite;
      isDamaged := false;
      spriteSwaps := 0;
    }

    method Damage()
      modifies this`sprite, this`isDamaged, this`spriteSwaps
      ensures sprite == damagedSprite && isDamaged
      ensures spriteSwaps == old(spriteSwaps) + 1
    {
      sprite := damagedSprite;
      isDamaged := true;
      spriteSwaps := spriteSwaps + 1;
    }

    /** A contact with `other` (null when the partner has no controller)
        while this component belongs to `car`. */
    method OnCollisionEnter2D(car: CarController, other: CarController?)
      requires Valid()
      modifies this`sprite, this`isDamaged, this`spriteSwaps
      ensures Valid()
      ensures isDamaged == Collide(old(isDamaged), ImpactOf(car, other))
      ensures if isDamaged != old(isDamaged)
              then sprite == damagedSprite && spriteSwaps == 1
              else sprite == old(sprite) && spriteSwaps == old(spriteSwaps)
    {
      if !isDamaged {
        var currSpeed := Magnitude(car.CurrentSpeed());
        var colCurrSpeed := if other != null then Magnitude(other.CurrentSpeed()) else 0;
        if currSpeed > Threshold || colCurrSpeed > Threshold {
          Damage();
        }
      }
    }
  }
}

=== FILE: car_control.dfy ===
/**
  CarController.cs as a class: its speed, steer rate, direction latches and
  touch-button flags are fields updated in place, and every method is
  proved against the functions of CarMotion. Keys polled with
  Input.GetKey arrive as an `Intent` parameter; the touch buttons reach the
  object through the Set* methods.
*/
module CarControl {
  import opened Wrappers
  import opened CarMotion

  class CarController {
    const controlMode: InputType
    const maxSpeed: int
    const maxSteer: int
    const breaks: int
    var acceleration: int
    var steer: int
    var accelerationForward: bool
    var accelerationBackward: bool
    var touchAcceleration: bool
    var touchBack: bool
    var touchBreaks: bool
    var steerLeft: bool
    var steerRight: bool

    function Settings(): Config
    {
      Config(controlMode, maxSpeed, maxSteer, breaks)
    }

    function State(): MotionState
      reads this
    {
      MotionState(acceleration, steer, accelerationForward, accelerationBackward)
    }

    /** The intent the touch buttons currently express. */
    function TouchIntent(): Intent
      reads this
    {
      Intent(touchAcceleration, touchBack, touchBreaks, steerLeft, steerRight)
    }

    /** The intent a tick acts on: the polled keys in keyboard mode, the
        button flags in touch mode. */
    function InputFor(keys: Intent): Intent
      reads this
    {
      if controlMode == KeyBoard then keys else TouchIntent()
    }

    constructor (mode: InputType, maxSpeed: int, maxSteer: int, breaks: int)
      ensures Settings() == Config(mode, maxSpeed, maxSteer, breaks)
      ensures State() == AtRest && TouchIntent() == NoInput
    {
      this.controlMode := mode;
      this.maxSpeed := maxSpeed;
      this.maxSteer := maxSteer;
      this.breaks := breaks;
      acceleration, steer := 0, 0;
      accelerationForward, accelerationBackward := false, false;
      touchAcceleration, touchBack, touchBreaks, steerLeft, steerRight := false, false, false, false, false;
    }

    /** The signed speed other components read; callers take its magnitude. */
    function CurrentSpeed(): (v: int)
      reads this
      ensures v == State().speed
    {
      acceleration
    }

    method SetTouchAcceleration(touchState: bool)
      modifies this`touchAcceleration
      ensures TouchIntent() == old(TouchIntent()).(accelerate := touchState)
    {
      touchAcceleration := touchState;
    }

    method SetTouchBack(touchState: bool)
      modifies this`touchBack
      ensures TouchIntent() == old(TouchIntent()).(reverse := touchState)
    {
      touchBack := touchState;
    }

    method SetTouchBreaks(touchState: bool)
      modifies this`touchBreaks
      ensures TouchIntent() == old(TouchIntent()).(brake := touchState)
    {
      touchBreaks := touchState;
    }

    method SetSteerLeft(touchState: bool)
      modifies this`steerLeft
      ensures TouchIntent() == old(TouchIntent()).(left := touchState)
    {
      steerLeft := touchState;
    }

    method SetSteerRight(touchState: bool)
      modifies this`steerRight
      ensures TouchIntent() == old(TouchIntent()).(right := touchState)
    {
      steerRight := touchState;
    }

    method Acceleration(direction: int, keys: Intent) returns (pose: PoseDelta)
      modifies this`acceleration, this`steer, this`accelerationForward, this`accelerationBackward
      ensures State() == Accelerate(Settings(), old(State()), direction)
      ensures pose == AccelerationPose(Settings(), old(State()), direction, old(InputFor(keys)).left, old(InputFor(keys)).right)
    {
      var input := InputFor(keys);
      var rotations: seq<int> := [];
      if direction == 1 {
        accelerationForward := true;
        if acceleration <= maxSpeed {
          acceleration := acceleration + AccelStep;
        }
      } else if direction == -1 {
        accelerationBackward := true;
        if -maxSpeed <= acceleration {
          acceleration := acceleration - AccelStep;
        }
      }
      if direction == 1 || direction == -1 {
        rotations := Rotations(controlMode, direction, steer, input.left, input.right);
      }
      if steer <= maxSteer {
        steer := steer + SteerStep;
      }
      pose := PoseDelta(rotations, acceleration);
    }

    method StopAcceleration(direction: int, breakingFactor: int, keys: Intent) returns (pose: PoseDelta)
      modifies this`acceleration, this`steer, this`accelerationForward, this`accelerationBackward
      ensures State() == Brake(old(State()), direction, breakingFactor)
      ensures pose == BrakePose(Settings(), old(State()), direction, breakingFactor, old(InputFor(keys)).left, old(InputFor(keys)).right)
    {
      var input := InputFor(keys);
      var rotations: seq<int> := [];
      var decays := false;
      if direction == 1 {
        if acceleration >= 0 {
          acceleration := acceleration - breakingFactor;
          decays := true;
        } else {
          accelerationForward := false;
        }
      } else if direction == -1 {
        if acceleration <= 0 {
          acceleration := acceleration + breakingFactor;
          decays := true;
        } else {
          accelerationBackward := false;
        }
      }
      if decays {
        rotations := Rotations(controlMode, direction, steer, input.left, input.right);
      }
      if steer >= 0 {
        steer := steer - SteerStep;
      }
      pose := PoseDelta(rotations, acceleration);
    }

    /** The priority dispatch shared by KeyBoardControl and TouchControl. */
    method Control(input: Intent, keys: Intent) returns (pose: Option<PoseDelta>)
      requires input == InputFor(keys)
      modifies this`acceleration, this`steer, this`accelerationForward, this`accelerationBackward
      ensures Step(State(), pose) == Tick(Settings(), old(State()), input)
    {
      if input.accelerate {
        var p := Acceleration(1, keys);
        pose := Some(p);
      } else if input.reverse {
        var p := Acceleration(-1, keys);
        pose := Some(p);
      } else if input.brake {
        if accelerationForward {
          var p := StopAcceleration(1, breaks, keys);
          pose := Some(p);
        } else if accelerationBackward {
          var p := StopAcceleration(-1, breaks, keys);
          pose := Some(p);
        } else {
          pose := None;
        }
      } else {
        if accelerationForward {
          var p := StopAcceleration(1, IdleDecay, keys);
          pose := Some(p);
        } else if accelerationBackward {
          var p := StopAcceleration(-1, IdleDecay, keys);
          pose := Some(p);
        } else {
          pose := None;
        }
      }
    }

    method KeyBoardControl(keys: Intent) returns (pose: Option<PoseDelta>)
      requires controlMode == KeyBoard
      modifies this`acceleration, this`steer, this`accelerationForward, this`accelerationBackward
      ensures Step(State(), pose) == Tick(Settings(), old(State()), keys)
    {
      pose := Control(keys, keys);
    }

    method TouchControl() returns (pose: Option<PoseDelta>)
      requires controlMode == Touch
      modifies this`acceleration, this`steer, this`accelerationForward, this`accelerationBackward
      ensures Step(State(), pose) == Tick(Settings(), old(State()), TouchIntent())
    {
      pose := Control(TouchIntent(), NoInput);
    }

    /** One physics tick; `keys` are the keys held during it. */
    method FixedUpdate(keys: Intent) returns (pose: Option<PoseDelta>)
      modifies this`acceleration, this`steer, this`accelerationForward, this`accelerationBackward
      ensures Step(State(), pose) == Tick(Settings(), old(State()), InputFor(keys))
    {
      if controlMode == KeyBoard {
        pose := KeyBoardControl(keys);
      } else {
        pose := TouchControl();
      }
    }

    /** The intents of consecutive ticks: the polled keys in keyboard mode,
        the unchanged button flags in touch mode. */
    function InputsFor(keys: seq<Intent>): (inputs: seq<Intent>)
      reads this
      ensures |inputs| == |keys|
      ensures forall k :: 0 <= k < |keys| ==> inputs[k] == InputFor(keys[k])
    {
      RepeatAt(TouchIntent(), |keys|);
      if controlMode == KeyBoard then keys else Repeat(TouchIntent(), |keys|)
    }

    /** The host loop: one FixedUpdate per element of `keys`, the touch
        buttons held still meanwhile. */
    method Simulate(keys: seq<Intent>) returns (poses: seq<Option<PoseDelta>>)
      modifies this`acceleration, this`steer, this`accelerationForward, this`accelerationBackward
      ensures State() == RunTicks(Settings(), old(State()), InputsFor(keys))
      ensures poses == RunPoses(Settings(), old(State()), InputsFor(keys))
    {
      ghost var inputs := InputsFor(keys);
      ghost var c := Settings();
      ghost var start := State();
      poses := [];
      var n := 0;
      while n < |keys|
        invariant 0 <= n <= |keys|
        invariant TouchIntent() == old(TouchIntent())
        invariant RunTicks(c, State(), inputs[n..]) == RunTicks(c, start, inputs)
        invariant poses + RunPoses(c, State(), inputs[n..]) == RunPoses(c, start, inputs)
      {
        ghost var before := State();
        assert inputs[n] == InputFor(keys[n]);
        var pose := FixedUpdate(keys[n]);
        SimulateStep(c, before, inputs, n, State(), pose, poses);
        poses := poses + [pose];
        n := n + 1;
      }
    }
  }


  /** One iteration of the host loop keeps its two invariants. */
  lemma SimulateStep(c: Config, before: MotionState, inputs: seq<Intent>, n: nat,
                     after: MotionState, pose: Option<PoseDelta>, poses: seq<Option<PoseDelta>>)
    requires n < |inputs|
    requires Step(after, pose) == Tick(c, before, inputs[n])
    ensures RunTicks(c, after, inputs[n + 1..]) == RunTicks(c, before, inputs[n..])
    ensures poses + [pose] + RunPoses(c, after, inputs[n + 1..]) == poses + RunPoses(c, before, inputs[n..])
  {
    RunStep(c, before, inputs, n);
    assert poses + [pose] + RunPoses(c, after, inputs[n + 1..])
        == poses + ([pose] + RunPoses(c, after, inputs[n + 1..]));
  }
}

=== FILE: car_motion.dfy ===
/**
  The motion state machine of CarController.cs as pure functions.

  Speeds and steer rates are fixed-point hundredths: CarController.cs's 0.05
  speed step is 5, its 0.01 steer step is 1, its 0.1 idle decay is 10 and the
  default maximum speed 7.0 is 700.  One call of `Accelerate`, `Brake` or
  `Tick` is one call of CarController's Acceleration,
  StopAcceleration or FixedUpdate; the class in CarControl is proved against these functions.
*/
module CarMotion {
  import opened Wrappers

  /** How a car is driven: polled keys or on-screen touch buttons. */
  datatype InputType = KeyBoard | Touch

  /** Speed added or removed by one acceleration call (0.05). */
  const AccelStep: int := 5
  /** Steer rate added or removed per call (0.01). */
  const SteerStep: int := 1
  /** Braking factor used when no key or button is held (0.1). */
  const IdleDecay: int := 10

  /** The per-car settings CarController serialises. */
  datatype Config = Config(mode: InputType, maxSpeed: int, maxSteer: int, breaks: int)

  /** CarController's defaults: 7.0, 2.0 and 0.2, keyboard input. */
  const DefaultConfig := Config(KeyBoard, 700, 200, 20)

  /** Signed speed, steer rate and the two direction latches. */
  datatype MotionState = MotionState(speed: int, steer: int, forward: bool, backward: bool)

  const AtRest := MotionState(0, 0, false, false)

  /** What the driver asks for in one tick, whatever the input device:
      accelerate (Up / touch accelerate), reverse (Down / touch back),
      brake (Space / touch brakes) and the two steering keys or buttons. */
  datatype Intent = Intent(accelerate: bool, reverse: bool, brake: bool, left: bool, right: bool)

  const NoInput := Intent(false, false, false, false, false)
  const HoldForward := Intent(true, false, false, false, false)

  /** What one action asks of the transform: the signed angles passed to
      Rotate, in order (positive is Vector3.forward), and the signed speed
      passed to Translate along the car's up axis (Time.deltaTime left out). */
  datatype PoseDelta = PoseDelta(rotations: seq<int>, translation: int)

  /** One tick's outcome: the new state and the pose change, None when the
      dispatch ran no action. */
  datatype Step = Step(next: MotionState, pose: Option<PoseDelta>)

  function Min(a: int, b: int): int { if a <= b then a else b }
  function Max(a: int, b: int): int { if a <= b then b else a }

  function Negated(r: seq<int>): seq<int> { seq(|r|, k requires 0 <= k < |r| => -r[k]) }

  function Count(b: bool): nat { if b then 1 else 0 }

  /** The rotations applied while moving in `direction` with steer rate
      `steer`. Keyboard mode applies one rotation per held key and mirrors
      them in reverse; touch mode applies at most one, left first, and never
      mirrors. */
  function Rotations(mode: InputType, direction: int, steer: int, left: bool, right: bool): (r: seq<int>)
    requires direction == 1 || direction == -1
    ensures mode == KeyBoard ==> |r| == Count(left) + Count(right)
    ensures mode == KeyBoard && left ==> r[0] == direction * steer
    ensures mode == KeyBoard && right ==> r[|r| - 1] == -direction * steer
    ensures mode == Touch && left ==> r == [steer]
    ensures mode == Touch && !left && right ==> r == [-steer]
    ensures mode == Touch && !left && !right ==> r == []
  {
    match mode
    case KeyBoard =>
      if left && right then [direction * steer, -direction * steer]
      else if left then [direction * steer]
      else if right then [-direction * steer]
      else []
    case Touch =>
      if left then [steer] else if right then [-steer] else []
  }

  /** The state change of Acceleration(direction). The bound is checked
      before the step, so speed and steer can pass their maxima by one step
      but never by two. */
  function Accelerate(c: Config, s: MotionState, direction: int): (t: MotionState)
    ensures direction == 1 ==> t.forward && t.backward == s.backward
    ensures direction == 1 ==> t.speed == s.speed || t.speed == s.speed + AccelStep
    ensures direction == 1 ==> (t.speed != s.speed <==> s.speed <= c.maxSpeed)
    ensures direction == 1 ==> t.speed <= Max(s.speed, c.maxSpeed + AccelStep)
    ensures direction == -1 ==> t.backward && t.forward == s.forward
    ensures direction == -1 ==> t.speed == s.speed || t.speed == s.speed - AccelStep
    ensures direction == -1 ==> (t.speed != s.speed <==> -c.maxSpeed <= s.speed)
    ensures direction == -1 ==> Min(s.speed, -c.maxSpeed - AccelStep) <= t.speed
    ensures direction != 1 && direction != -1 ==>
      t.speed == s.speed && t.forward == s.forward && t.backward == s.backward
    ensures t.steer == s.steer || t.steer == s.steer + SteerStep
    ensures t.steer != s.steer <==> s.steer <= c.maxSteer
    ensures t.steer <= Max(s.steer, c.maxSteer + SteerStep)
  {
    MotionState(
      speed :=
        if direction == 1 && s.speed <= c.maxSpeed then s.speed + AccelStep
        else if direction == -1 && -c.maxSpeed <= s.speed then s.speed - AccelStep
        else s.speed,
      steer := if s.steer <= c.maxSteer then s.steer + SteerStep else s.steer,
      forward := s.forward || direction == 1,
      backward := s.backward || direction == -1)
  }

  /** The state change of StopAcceleration(direction, factor). While speed is
      still on the side of `direction` (or zero) it moves by `factor` toward
      the other side and the latch stays; only the call after speed has
      crossed zero clears the latch, and that call leaves speed alone. */
  function Brake(s: MotionState, direction: int, factor: int): (t: MotionState)
    ensures t.forward ==> s.forward
    ensures t.backward ==> s.backward
    ensures direction == 1 ==> (t.forward <==> s.forward && s.speed >= 0) && t.backward == s.backward
    ensures direction == 1 && s.speed >= 0 ==> t.speed == s.speed - factor
    ensures direction == 1 && s.speed >= 0 && factor >= 0 ==> -factor <= t.speed <= s.speed
    ensures direction == 1 && s.speed < 0 ==> t.speed == s.speed
    ensures direction == -1 ==> (t.backward <==> s.backward && s.speed <= 0) && t.forward == s.forward
    ensures direction == -1 && s.speed <= 0 ==> t.speed == s.speed + factor
    ensures direction == -1 && s.speed <= 0 && factor >= 0 ==> s.speed <= t.speed <= factor
    ensures direction == -1 && s.speed > 0 ==> t.speed == s.speed
    ensures direction != 1 && direction != -1 ==>
      t.speed == s.speed && t.forward == s.forward && t.backward == s.backward
    ensures t.steer == s.steer || t.steer == s.steer - SteerStep
    ensures t.steer != s.steer <==> s.steer >= 0
    ensures t.steer >= Min(s.steer, -SteerStep)
  {
    MotionState(
      speed :=
        if direction == 1 && s.speed >= 0 then s.speed - factor
        else if direction == -1 && s.speed <= 0 then s.speed + factor
        else s.speed,
      steer := if s.steer >= 0 then s.steer - SteerStep else s.steer,
      forward := s.forward && !(direction == 1 && s.speed < 0),
      backward := s.backward && !(direction == -1 && s.speed > 0))
  }

  /** What Acceleration(direction) asks of the transform: it rotates with the
      steer rate from before the call and translates by the speed after it. */
  function AccelerationPose(c: Config, s: MotionState, direction: int, left: bool, right: bool): PoseDelta
  {
    PoseDelta(
      if direction == 1 || direction == -1 then Rotations(c.mode, direction, s.steer, left, right) else [],
      Accelerate(c, s, direction).speed)
  }

  /** What StopAcceleration(direction, factor) asks of the transform: it
      rotates only when it also decays speed. */
  function BrakePose(c: Config, s: MotionState, direction: int, factor: int, left: bool, right: bool): PoseDelta
  {
    var decays := (direction == 1 && s.speed >= 0) || (direction == -1 && s.speed <= 0);
    PoseDelta(
      if decays then Rotations(c.mode, direction, s.steer, left, right) else [],
      Brake(s, direction, factor).speed)
  }

  /** The braking factor the dispatch uses when neither accelerate nor
      reverse is asked for: the configured brakes, or the idle decay. */
  function DecayFactor(c: Config, i: Intent): int
  {
    if i.brake then c.breaks else IdleDecay
  }

  /** One FixedUpdate: KeyBoardControl or TouchControl, which run at most one
      action in the order accelerate, reverse, brake, idle decay. Braking
      follows the forward latch when both latches are set. */
  function Tick(c: Config, s: MotionState, i: Intent): (r: Step)
    ensures r.pose.None? <==> !i.accelerate && !i.reverse && !s.forward && !s.backward
    ensures r.pose.None? ==> r.next == s
    ensures r.pose.Some? ==> r.pose.value.translation == r.next.speed
    ensures r.next.forward && !s.forward ==> i.accelerate
    ensures r.next.backward && !s.backward ==> !i.accelerate && i.reverse
    ensures !r.next.forward && s.forward ==> !i.accelerate && !i.reverse && s.speed < 0
    ensures !r.next.backward && s.backward ==>
      !i.accelerate && !i.reverse && !s.forward && s.speed > 0
    ensures i.accelerate ==> r.next.speed >= s.speed
    ensures !i.accelerate && i.reverse ==> r.next.speed <= s.speed
  {
    if i.accelerate then
      Step(Accelerate(c, s, 1), Some(AccelerationPose(c, s, 1, i.left, i.right)))
    else if i.reverse then
      Step(Accelerate(c, s, -1), Some(AccelerationPose(c, s, -1, i.left, i.right)))
    else if s.forward then
      var f := DecayFactor(c, i);
      Step(Brake(s, 1, f), Some(BrakePose(c, s, 1, f, i.left, i.right)))
    else if s.backward then
      var f := DecayFactor(c, i);
      Step(Brake(s, -1, f), Some(BrakePose(c, s, -1, f, i.left, i.right)))
    else
      Step(s, None)
  }

  /** The state after one tick per element of `inputs`. */
  function RunTicks(c: Config, s: MotionState, inputs: seq<Intent>): MotionState
    decreases |inputs|
  {
    if inputs == [] then s else RunTicks(c, Tick(c, s, inputs[0]).next, inputs[1..])
  }

  /** The pose changes of those ticks, one per input. */
  function RunPoses(c: Config, s: MotionState, inputs: seq<Intent>): (ps: seq<Option<PoseDelta>>)
    ensures |ps| == |inputs|
    decreases |inputs|
  {
    if inputs == [] then []
    else [Tick(c, s, inputs[0]).pose] + RunPoses(c, Tick(c, s, inputs[0]).next, inputs[1..])
  }

  function Repeat(i: Intent, n: nat): (r: seq<Intent>)
    ensures |r| == n
  {
    if n == 0 then [] else [i] + Repeat(i, n - 1)
  }

  /** A bound on the speed magnitude a car whose brakes are not negative
      can reach from rest. */
  function SpeedLimit(c: Config): int
  {
    Max(Max(c.maxSpeed + AccelStep, c.breaks), IdleDecay)
  }

  /** Speed within one step of its maximum (or within a braking factor of
      zero), steer rate within one step of [0, maxSteer]. */
  ghost predicate WithinLimits(c: Config, s: MotionState)
  {
    -SpeedLimit(c) <= s.speed <= SpeedLimit(c) &&
    -SteerStep <= s.steer <= Max(c.maxSteer + SteerStep, 0)
  }

  // ----- Properties of the dispatch -----

  /** Reversing mirrors keyboard steering and leaves touch steering as it
      is; holding both keys applies two opposite rotations. */
  lemma RotationMirroring(steer: int, left: bool, right: bool)
    ensures Rotations(KeyBoard, -1, steer, left, right) == Negated(Rotations(KeyBoard, 1, steer, left, right))
    ensures Rotations(Touch, -1, steer, left, right) == Rotations(Touch, 1, steer, left, right)
    ensures left && right ==> Rotations(KeyBoard, 1, steer, left, right) == [steer, -steer]
  {
  }

  lemma TickKeepsLimits(c: Config, s: MotionState, i: Intent)
    requires c.breaks >= 0
    requires WithinLimits(c, s)
    ensures WithinLimits(c, Tick(c, s, i).next)
  {
  }

  lemma {:induction false} RunKeepsLimits(c: Config, s: MotionState, inputs: seq<Intent>)
    requires c.breaks >= 0
    requires WithinLimits(c, s)
    ensures WithinLimits(c, RunTicks(c, s, inputs))
    decreases |inputs|
  {
    if inputs != [] {
      TickKeepsLimits(c, s, inputs[0]);
      RunKeepsLimits(c, Tick(c, s, inputs[0]).next, inputs[1..]);
    }
  }

  /** From rest, under any inputs, |speed| never exceeds SpeedLimit and the
      steer rate stays in [-0.01, maxSteer + 0.01]. */
  lemma LimitsFromRest(c: Config, inputs: seq<Intent>)
    requires c.breaks >= 0
    ensures -SpeedLimit(c) <= RunTicks(c, AtRest, inputs).speed <= SpeedLimit(c)
    ensures -SteerStep <= RunTicks(c, AtRest, inputs).steer <= Max(c.maxSteer + SteerStep, 0)
  {
    RunKeepsLimits(c, AtRest, inputs);
  }

  lemma {:induction false} RunAppend(c: Config, s: MotionState, a: seq<Intent>, b: seq<Intent>)
    ensures RunTicks(c, s, a + b) == RunTicks(c, RunTicks(c, s, a), b)
    decreases |a|
  {
    if a == [] {
      assert a + b == b;
    } else {
      assert (a + b)[0] == a[0];
      assert (a + b)[1..] == a[1..] + b;
      RunAppend(c, Tick(c, s, a[0]).next, a[1..], b);
    }
  }

  lemma {:induction false} RepeatSnoc(i: Intent, n: nat)
    ensures Repeat(i, n + 1) == Repeat(i, n) + [i]
  {
    if n > 0 {
      RepeatSnoc(i, n - 1);
    }
  }

  /** With no latch set and nothing asked for, ticks change nothing. */
  lemma {:induction false} IdleWithoutLatches(c: Config, s: MotionState, n: nat)
    requires !s.forward && !s.backward
    ensures RunTicks(c, s, Repeat(NoInput, n)) == s
    ensures forall k :: 0 <= k < n ==> RunPoses(c, s, Repeat(NoInput, n))[k].None?
  {
    if n > 0 {
      IdleWithoutLatches(c, s, n - 1);
    }
  }

  /** Forward acceleration from a multiple of the step grows speed one step
      per tick until it first exceeds maxSpeed, i.e. up to
      (maxSpeed / 0.05 + 1) steps, and no further. */
  lemma {:induction false} ForwardRun(c: Config, s: MotionState, n: nat)
    requires s.speed % AccelStep == 0
    requires s.speed <= AccelStep * (c.maxSpeed / AccelStep + 1)
    ensures RunTicks(c, s, Repeat(HoldForward, n)).speed
         == Min(s.speed + AccelStep * n, AccelStep * (c.maxSpeed / AccelStep + 1))
    ensures RunTicks(c, s, Repeat(HoldForward, n)).forward == (s.forward || n > 0)
    ensures RunTicks(c, s, Repeat(HoldForward, n)).backward == s.backward
    ensures RunTicks(c, s, Repeat(HoldForward, n)).steer
         == if s.steer > c.maxSteer then s.steer else Min(s.steer + SteerStep * n, c.maxSteer + SteerStep)
    decreases n
  {
    if n > 0 {
      var t := Tick(c, s, HoldForward).next;
      if s.speed <= c.maxSpeed {
        assert t.speed == s.speed + AccelStep;
      } else {
        assert t.speed == s.speed;
      }
      ForwardRun(c, t, n - 1);
    }
  }

  lemma ForwardFromRest(c: Config, n: nat)
    requires c.maxSpeed >= 0
    ensures RunTicks(c, AtRest, Repeat(HoldForward, n)).speed
         == AccelStep * Min(n, c.maxSpeed / AccelStep + 1)
  {
    ForwardRun(c, AtRest, n);
  }

  /** The steer rate after `m` braking calls: each one lowers it by 0.01
      while it is not negative, so it never drops below -0.01. */
  function SteerAfterBrakes(steer: int, m: nat): int
  {
    if steer < 0 then steer else Max(steer - SteerStep * m, -SteerStep)
  }

  /** The total decay of `m` ticks with factor `f`, as repeated addition, so
      that the inductions over it need no nonlinear multiplication. */
  function Decayed(m: nat, f: int): (d: int)
    ensures f >= 0 ==> d >= 0
  {
    if m == 0 then 0 else Decayed(m - 1, f) + f
  }

  lemma {:induction false} DecayedIsProduct(m: nat, f: int)
    ensures Decayed(m, f) == m * f
  {
    if m > 0 {
      DecayedIsProduct(m - 1, f);
    }
  }

  lemma {:induction false} DecaySteps(c: Config, s: MotionState, i: Intent, m: nat)
    requires !i.accelerate && !i.reverse && DecayFactor(c, i) >= 0
    requires s.forward && 0 <= s.speed
    requires m > 0 ==> Decayed(m - 1, DecayFactor(c, i)) <= s.speed
    ensures RunTicks(c, s, Repeat(i, m)).speed == s.speed - Decayed(m, DecayFactor(c, i))
    ensures RunTicks(c, s, Repeat(i, m)).forward
    ensures RunTicks(c, s, Repeat(i, m)).backward == s.backward
    ensures RunTicks(c, s, Repeat(i, m)).steer == SteerAfterBrakes(s.steer, m)
    decreases m
  {
    if m > 0 {
      DecayTick(c, s, i);
      RunRepeat(c, s, i, m);
      if m > 1 {
        DecayedShift(m - 1, DecayFactor(c, i));
        DecaySteps(c, Tick(c, s, i).next, i, m - 1);
      }
      DecayedShift(m, DecayFactor(c, i));
    }
  }

  /** Taking the first decay off the front instead of the back. */
  lemma {:induction false} DecayedShift(m: nat, f: int)
    requires m > 0
    ensures Decayed(m, f) == f + Decayed(m - 1, f)
  {
  }

  /** Neither accelerating nor reversing, a forward-latched car loses the
      decay factor per tick while its speed is not negative; the latch holds
      throughout. */
  lemma DecayRun(c: Config, s: MotionState, i: Intent, m: nat)
    requires !i.accelerate && !i.reverse && DecayFactor(c, i) >= 0
    requires s.forward && 0 <= s.speed
    requires m > 0 ==> (m - 1) * DecayFactor(c, i) <= s.speed
    ensures RunTicks(c, s, Repeat(i, m)).speed == s.speed - m * DecayFactor(c, i)
    ensures RunTicks(c, s, Repeat(i, m)).forward
    ensures RunTicks(c, s, Repeat(i, m)).backward == s.backward
    ensures RunTicks(c, s, Repeat(i, m)).steer == SteerAfterBrakes(s.steer, m)
  {
    DecayedIsProduct(m, DecayFactor(c, i));
    if m > 0 {
      DecayedIsProduct(m - 1, DecayFactor(c, i));
    }
    DecaySteps(c, s, i, m);
  }

  /** One decay tick of a forward-latched car whose speed is not negative. */
  lemma DecayTick(c: Config, s: MotionState, i: Intent)
    requires !i.accelerate && !i.reverse
    requires s.forward && 0 <= s.speed
    ensures Tick(c, s, i).next.speed == s.speed - DecayFactor(c, i)
    ensures Tick(c, s, i).next.forward && Tick(c, s, i).next.backward == s.backward
    ensures Tick(c, s, i).next.steer == SteerAfterBrakes(s.steer, 1)
  {
  }

  /** Running `m` copies of an input is one tick followed by `m - 1`. */
  lemma RunRepeat(c: Config, s: MotionState, i: Intent, m: nat)
    requires m > 0
    ensures RunTicks(c, s, Repeat(i, m)) == RunTicks(c, Tick(c, s, i).next, Repeat(i, m - 1))
  {
    assert Repeat(i, m)[0] == i && Repeat(i, m)[1..] == Repeat(i, m - 1);
  }

  /** Once speed has gone below zero, the next decay tick clears the forward
      latch and leaves speed where it is: the car keeps a residual reverse
      speed of at most one decay factor. */
  lemma DecayClearsForwardLatch(c: Config, s: MotionState, i: Intent, m: nat)
    requires !i.accelerate && !i.reverse && DecayFactor(c, i) >= 0
    requires s.forward && 0 <= s.speed
    requires m > 0 && (m - 1) * DecayFactor(c, i) <= s.speed < m * DecayFactor(c, i)
    ensures !RunTicks(c, s, Repeat(i, m + 1)).forward
    ensures RunTicks(c, s, Repeat(i, m + 1)).speed == s.speed - m * DecayFactor(c, i)
    ensures -DecayFactor(c, i) <= RunTicks(c, s, Repeat(i, m + 1)).speed < 0
    ensures RunTicks(c, s, Repeat(i, m + 1)).backward == s.backward
    ensures RunTicks(c, s, Repeat(i, m + 1)).steer == SteerAfterBrakes(s.steer, m + 1)
  {
    DecayRun(c, s, i, m);
    RepeatSnoc(i, m);
    RunAppend(c, s, Repeat(i, m), [i]);
  }

  /** With the default settings: 200 forward ticks from rest give 7.05, one
      step past the maximum; letting go, 71 idle ticks bring speed to -0.05
      and the 72nd clears the forward latch; together the 72 lower the
      steer rate from 2.0 to 1.28. After that idle ticks change nothing and
      move nothing, and the car keeps a speed of -0.05. */
  lemma DefaultDriveAndCoast(extra: nat)
    ensures RunTicks(DefaultConfig, AtRest, Repeat(HoldForward, 200)).speed == 705
    ensures
      var coasted := RunTicks(DefaultConfig, AtRest, Repeat(HoldForward, 200) + Repeat(NoInput, 72));
      coasted.speed == -5 && coasted.steer == 128 && !coasted.forward && !coasted.backward &&
      RunTicks(DefaultConfig, coasted, Repeat(NoInput, extra)) == coasted &&
      forall k :: 0 <= k < extra ==> RunPoses(DefaultConfig, coasted, Repeat(NoInput, extra))[k].None?
  {
    var c := DefaultConfig;
    ForwardRun(c, AtRest, 200);
    var top := RunTicks(c, AtRest, Repeat(HoldForward, 200));
    RunAppend(c, AtRest, Repeat(HoldForward, 200), Repeat(NoInput, 72));
    DecayClearsForwardLatch(c, top, NoInput, 71);
    var coasted := RunTicks(c, top, Repeat(NoInput, 72));
    IdleWithoutLatches(c, coasted, extra);
  }

  /** A coasting car with both latches set: the forward decays take speed
      below zero and clear the forward latch, then reverse braking takes it
      back above zero, into (0, 0.1], and clears the backward latch. */
  lemma CoastWithBothLatches(c: Config, s: MotionState, m: nat)
    requires s.forward && s.backward && 0 <= s.speed
    requires m > 0 && (m - 1) * IdleDecay <= s.speed < m * IdleDecay
    ensures var t := RunTicks(c, s, Repeat(NoInput, m + 4));
      !t.forward && !t.backward && 0 < t.speed <= IdleDecay
  {
    DecayClearsForwardLatch(c, s, NoInput, m);
    ReverseSettles(c, RunTicks(c, s, Repeat(NoInput, m + 1)));
    RepeatAppend(NoInput, m + 1, 3);
    RunAppend(c, s, Repeat(NoInput, m + 1), Repeat(NoInput, 3));
  }

  /** With only the backward latch set and speed in [-0.1, 0), three idle
      ticks brake speed into (0, 0.1] and clear the backward latch. */
  lemma ReverseSettles(c: Config, s: MotionState)
    requires !s.forward && s.backward && -IdleDecay <= s.speed < 0
    ensures var t := RunTicks(c, s, Repeat(NoInput, 3));
      !t.forward && !t.backward && 0 < t.speed <= IdleDecay
  {
    var t1 := Tick(c, s, NoInput).next;
    var t2 := Tick(c, t1, NoInput).next;
    RunRepeat(c, s, NoInput, 3);
    RunRepeat(c, t1, NoInput, 2);
    RunRepeat(c, t2, NoInput, 1);
    assert Repeat(NoInput, 0) == [];
  }

  lemma {:induction false} RepeatAppend(i: Intent, a: nat, b: nat)
    ensures Repeat(i, a) + Repeat(i, b) == Repeat(i, a + b)
  {
    if a > 0 {
      RepeatAppend(i, a - 1, b);
      assert Repeat(i, a) + Repeat(i, b) == [i] + (Repeat(i, a - 1) + Repeat(i, b));
    }
  }

  lemma {:induction false} RepeatAt(i: Intent, n: nat)
    ensures forall k :: 0 <= k < n ==> Repeat(i, n)[k] == i
  {
    if n > 0 {
      RepeatAt(i, n - 1);
    }
  }

  /** Running from the n-th input is one tick followed by running from the
      next one. */
  lemma RunStep(c: Config, s: MotionState, inputs: seq<Intent>, n: nat)
    requires n < |inputs|
    ensures RunTicks(c, s, inputs[n..]) == RunTicks(c, Tick(c, s, inputs[n]).next, inputs[n + 1..])
    ensures RunPoses(c, s, inputs[n..])
         == [Tick(c, s, inputs[n]).pose] + RunPoses(c, Tick(c, s, inputs[n]).next, inputs[n + 1..])
  {
    assert inputs[n..][0] == inputs[n] && inputs[n..][1..] == inputs[n + 1..];
  }
}

=== FILE: damage_rule.dfy ===
/**
  The damage rule CarCollisionDetect.cs and SpecialDamage.cs both apply on
  contact, and the one-way latch that guards it. Speeds are hundredths, so
  the threshold 3.5 is 350.
*/
module DamageRule {
  import opened Wrappers
  import opened CarControl

  /** The sprite a damage handler shows; only its identity matters here. */
  datatype Sprite = Sprite(id: nat)

  const Threshold: int := 350

  function Magnitude(speed: int): nat
  {
    if speed < 0 then -speed else speed
  }

  /** The partner's speed magnitude; a partner without a controller counts
      as standing still. */
  function PartnerMagnitude(partnerSpeed: Option<int>): nat
  {
    match partnerSpeed
    case None => 0
    case Some(v) => Magnitude(v)
  }

  /** A contact damages when either speed, whatever its sign, is strictly
      above 3.5. */
  function IsDamagingImpact(ownSpeed: int, partnerSpeed: Option<int>): (r: bool)
    ensures r <==> ownSpeed > Threshold || ownSpeed < -Threshold ||
                   (partnerSpeed.Some? && (partnerSpeed.value > Threshold || partnerSpeed.value < -Threshold))
  {
    Magnitude(ownSpeed) > Threshold || PartnerMagnitude(partnerSpeed) > Threshold
  }

  /** The speeds a contact is judged by: the signed speed of the car the
      component belongs to, and that of the partner if it has a controller. */
  datatype Impact = Impact(ownSpeed: int, partnerSpeed: Option<int>)

  function ImpactOf(car: CarController, other: CarController?): (r: Impact)
    reads car, other
    ensures r.ownSpeed == car.State().speed
    ensures r.partnerSpeed.None? <==> other == null
    ensures other != null ==> r.partnerSpeed.value == other.State().speed
  {
    Impact(car.CurrentSpeed(), if other == null then None else Some(other.CurrentSpeed()))
  }

  /** The damage flag after one contact: set when the contact damages, and
      never reset. */
  function Collide(damaged: bool, impact: Impact): (r: bool)
    ensures damaged ==> r
    ensures r != damaged <==> !damaged && IsDamagingImpact(impact.ownSpeed, impact.partnerSpeed)
  {
    damaged || IsDamagingImpact(impact.ownSpeed, impact.partnerSpeed)
  }

  /** The damage flag after a series of contacts. */
  function LatchAfter(damaged: bool, impacts: seq<Impact>): bool
    decreases |impacts|
  {
    if impacts == [] then damaged else LatchAfter(Collide(damaged, impacts[0]), impacts[1..])
  }

  /** How many contacts of the series flip the flag, i.e. how many times
      the damage effects run. */
  function Transitions(damaged: bool, impacts: seq<Impact>): nat
    decreases |impacts|
  {
    if impacts == [] then 0
    else
      var next := Collide(damaged, impacts[0]);
      (if next != damaged then 1 else 0) + Transitions(next, impacts[1..])
  }

  // ----- Properties of the rule -----

  lemma ImpactSymmetric(a: int, b: int)
    ensures IsDamagingImpact(a, Some(b)) == IsDamagingImpact(b, Some(a))
  {
  }

  lemma ImpactIgnoresSign(a: int, b: int)
    ensures IsDamagingImpact(-a, Some(b)) == IsDamagingImpact(a, Some(b))
    ensures IsDamagingImpact(a, Some(-b)) == IsDamagingImpact(a, Some(b))
    ensures IsDamagingImpact(-a, None) == IsDamagingImpact(a, None)
  {
  }

  lemma MissingPartnerStandsStill(a: int)
    ensures IsDamagingImpact(a, None) == IsDamagingImpact(a, Some(0))
    ensures IsDamagingImpact(a, None) <==> Magnitude(a) > Threshold
  {
  }

  /** 3.5 against 3.5 does not damage; 4.0 alone does, 3.0 alone does not,
      3.0 against 4.0 does, and 2.0 against 5.0 damages both sides. */
  lemma ThresholdExamples()
    ensures !IsDamagingImpact(350, Some(350)) && !IsDamagingImpact(-350, Some(-350))
    ensures IsDamagingImpact(400, None) && !IsDamagingImpact(300, None)
    ensures IsDamagingImpact(300, Some(400))
    ensures IsDamagingImpact(200, Some(500)) && IsDamagingImpact(500, Some(200))
  {
  }

  /** A damaged flag stays damaged whatever follows. */
  lemma {:induction false} LatchNeverResets(impacts: seq<Impact>)
    ensures LatchAfter(true, impacts)
    ensures Transitions(true, impacts) == 0
    decreases |impacts|
  {
    if impacts != [] {
      LatchNeverResets(impacts[1..]);
    }
  }

  /** An undamaged entity ends up damaged exactly when some contact of the
      series damaged. */
  lemma {:induction false} LatchHistory(impacts: seq<Impact>)
    ensures LatchAfter(false, impacts) <==> exists k :: 0 <= k < |impacts| && IsDamagingImpact(impacts[k].ownSpeed, impacts[k].partnerSpeed)
    decreases |impacts|
  {
    if impacts != [] {
      if IsDamagingImpact(impacts[0].ownSpeed, impacts[0].partnerSpeed) {
        LatchNeverResets(impacts[1..]);
      } else {
        LatchHistory(impacts[1..]);
        assert forall k :: 1 <= k < |impacts| ==> impacts[k] == impacts[1..][k - 1];
      }
    }
  }

  /** The damage effects run at most once, and once exactly when the flag
      ends up set having started clear. */
  lemma {:induction false} EffectsAtMostOnce(damaged: bool, impacts: seq<Impact>)
    ensures Transitions(damaged, impacts) <= 1
    ensures Transitions(damaged, impacts) == 1 <==> !damaged && LatchAfter(damaged, impacts)
    decreases |impacts|
  {
    if impacts != [] {
      var next := Collide(damaged, impacts[0]);
      if next {
        LatchNeverResets(impacts[1..]);
      } else {
        EffectsAtMostOnce(next, impacts[1..]);
      }
    }
  }
}

=== FILE: part_damage.dfy ===
/**
  SpecialDamage.cs: a named part with its own damage latch that, on its
  first damaging contact, also switches off a configured list of game
  objects.
*/
module PartDamage {
  import opened CarControl
  import opened DamageRule

  /** The one property of a Unity game object this component touches. */
  class GameObject {
    var active: bool

    constructor (active: bool)
      ensures this.active == active
    {
      this.active := active;
    }

    method SetActive(value: bool)
      modifies this
      ensures active == value
    {
      active := value;
    }
  }

  class SpecialDamage {
    const detailsForDisable: array<GameObject>
    const damagedSprite: Sprite
    var sprite: Sprite
    var isDamaged: bool
    ghost var effectRuns: nat

    /** The effects have run once if damaged, never otherwise. */
    ghost predicate Valid()
      reads this
    {
      effectRuns == if isDamaged then 1 else 0
    }

    /** The objects listed for disabling. */
    ghost function Details(): set<GameObject>
      reads detailsForDisable
    {
      set k | 0 <= k < detailsForDisable.Length :: detailsForDisable[k]
    }

    constructor (details: array<GameObject>, sprite: Sprite, damagedSprite: Sprite)
      ensures Valid() && !isDamaged
      ensures detailsForDisable == details
      ensures this.sprite == sprite && this.damagedSprite == damagedSprite
    {
      detailsForDisable := details;
      this.damagedSprite := damagedSprite;
      this.sprite := sprite;
      isDamaged := false;
      effectRuns := 0;
    }

    method Damage()
      modifies this`sprite, this`isDamaged, this`effectRuns, Details()
      ensures forall k :: 0 <= k < detailsForDisable.Length ==> !detailsForDisable[k].active
      ensures sprite == damagedSprite && isDamaged
      ensures effectRuns == old(effectRuns) + 1
    {
      for n := 0 to detailsForDisable.Length
        invariant forall k :: 0 <= k < n ==> !detailsForDisable[k].active
        modifies Details()
      {
        detailsForDisable[n].SetActive(false);
      }
      sprite := damagedSprite;
      isDamaged := true;
      effectRuns := effectRuns + 1;
    }

    /** A contact with `other` (null when the partner has no controller)
        while this part belongs to `car`. */
    method OnCollisionEnter2D(car: CarController, other: CarController?)
      requires Valid()
      modifies this`sprite, this`isDamaged, this`effectRuns, Details()
      ensures Valid()
      ensures isDamaged == Collide(old(isDamaged), ImpactOf(car, other))
      ensures if isDamaged != old(isDamaged)
              then sprite == damagedSprite && effectRuns == 1 &&
                   forall k :: 0 <= k < detailsForDisable.Length ==> !detailsForDisable[k].active
              else sprite == old(sprite) && effectRuns == old(effectRuns) &&
                   forall k :: 0 <= k < detailsForDisable.Length ==>
                     detailsForDisable[k].active == old(detailsForDisable[k].active)
    {
      if !isDamaged {
        var currSpeed := Magnitude(car.CurrentSpeed());
        var colCurrSpeed := if other != null then Magnitude(other.CurrentSpeed()) else 0;
        if currSpeed > Threshold || colCurrSpeed > Threshold {
          Damage();
        }
      }
    }
  }
}

=== FILE: wrappers.dfy ===
/** The optional value used for "a collision partner that has no controller"
    and "a tick in which no action ran". */
module Wrappers {

  datatype Option<+T> = None | Some(value: T)
}
